=== FILE: README.md ===
# Transit-vehicle dashboard: request composition and pagination state

A Dafny model of the non-presentational core of a React dashboard over the
MBTA v3 REST API. The dashboard lists transit vehicles, filters them by route
and trip, and paginates the list. The model covers:

- **HTTP client adapter** (`HttpClient`): a request is a path plus a
  query-parameter map. The response interceptor passes successes through. It
  turns every failure into one message: the `detail` of the first JSON:API
  v1.0 error object, or "An error occurred".
- **Resource requests** (`RouteService`, `TripService`, `VehicleService`):
  each `fetch*` function is a pure builder of the GET request. Parameters
  follow JSON:API v1.0: `page[offset]`/`page[limit]` (Pagination),
  `filter[...]` (Filtering), `sort` with a leading `-` for descending
  (Sorting), and `include` (Inclusion of Related Resources). The clock read
  behind the trip list's "today" default is the input `nowIso`.
- **Pagination control** (`Pagination`): total pages, the
  "Showing start-end of total" window, the disabled rules and proposed pages
  of the previous/next buttons, and the page-size choices.
- **Filter pickers** (`Selection`, `PagedQuery`, `RouteFilter`,
  `TripFilter`): the toggle rule on the selected-id list, and the
  accumulated ("infinite scroll") paging. That paging asks for the next page
  at an offset equal to the items loaded so far, only while that count is
  below the reported total. The pickers also build one request per page, and
  the trip picker labels each trip.
- **Data hooks** (`UseVehicles`, `UseVehicle`): cache keys, argument
  forwarding, the `enabled` guard of the detail query, and the defaults
  projected from responses.
- **Page coordinator** (`VehicleList`): a state machine over page, page
  size, selected filters and selected vehicle. It also derives the list
  offset and the request that follows from its state.

`Common` holds `Option` and the JavaScript `join`/`split` pair, with both
round trips proved. `ApiTypes` holds the response documents, reduced to the
fields the logic reads: every resource's id and a trip's headsign.
`QueryParams` holds parameter names and values.

Three behaviours of the code that a reader might not expect:

- The trip date default is the UTC calendar date (`toISOString`), not the
  local one.
- A page change is applied verbatim. The coordinator does not clamp it.
  The disabled Previous button keeps the page at 1 or above
  (`VehicleList.StepKeepsWellFormed`). Next is disabled only on exactly the
  last page (`Pagination.NavigationStaysInRange`). While the total stays
  fixed, a page in range therefore stays in range
  (`VehicleList.PageChangeStaysInRange`). From any page past the last one,
  Next stays enabled and leads further past it (`Pagination.NextPastTheEnd`,
  `VehicleList.PageCanRunPastTheEnd`). Every page is past the last one while
  the reported total is still 0. That happens on the first render and while
  the query for a new key loads.
- With no items the window reads "1-0 of 0", not "0-0 of 0". There are 0
  pages, and Next is enabled on page 1 because its test is `===`
  (`Pagination.EmptyListEdgeCase`).

## Model

| member | source | states |
|---|---|---|
| `HttpClient.ErrorMessage` | src/helpers/http-client.ts:14-15 | the message is never empty; it is the generic text or the first error's detail, and a non-empty first detail always wins |
| `HttpClient.FirstDetail` | src/helpers/http-client.ts:15 | a detail is found exactly when the response, its body, its `errors` list, a first entry and that entry's `detail` all exist, and then it is that first entry's detail |
| `HttpClient.Intercept` | src/helpers/http-client.ts:11-17 | successes pass through with their body unchanged; every failure becomes a rejection whose message is exactly `ErrorMessage` of that error, never empty |
| `HttpClient.GenericMessageCases` | src/helpers/http-client.ts:14-15 | no response, no body, no `errors`, an empty `errors`, a first entry without detail, and an empty detail all give "An error occurred" |
| `HttpClient.RemoteDetailSurfaces` | src/helpers/http-client.ts:14-16 | a remote error body such as `{errors:[{detail:"Vehicle not found"}]}` is rejected with exactly that detail |
| `HttpClient.OnlyFirstErrorCounts` | src/helpers/http-client.ts:15 | error bodies that agree on their first entry give the same message, whatever follows it |
| `VehicleService.FetchVehicles` | src/services/vehicle.service.ts:16-41 | path `/vehicles`; keys are exactly the four fixed ones plus `filter[route]`/`filter[trip]` iff the matching list is non-empty; defaults offset 0 and limit 20; include "trip,route"; sort "-updated_at"; filters are the ids comma-joined |
| `VehicleService.FetchVehicleById` | src/services/vehicle.service.ts:43-52 | the path is `/vehicles/` followed by the id, and `include="trip,route"` is the only parameter |
| `QueryParams.HasIds` | src/services/vehicle.service.ts:29-33 | `ids?.length` is falsy for exactly two inputs: an absent list and an empty one; the vehicle and trip services share this test |
| `VehicleService.DefaultRequest` | src/services/vehicle.service.ts:16-27 | with no options the request is offset 0, limit 20, both relationships included, newest first, with no filter |
| `VehicleService.FiltersAreIndependent` | src/services/vehicle.service.ts:29-35 | changing the trip ids never affects the route filter, and changing the route ids never affects the trip filter |
| `VehicleService.ParamCount` | src/services/vehicle.service.ts:22-35 | a request has 4 keys plus one per non-empty id list, and nothing else |
| `VehicleService.FilterValuesRecoverIds` | src/services/vehicle.service.ts:29-35 | splitting a sent filter value on "," gives back exactly the ids, when no id contains a comma |
| `Common.Split` | src/services/trip.service.ts:29 | `split` returns at least one part and no part contains the separator; the first part is the string's longest separator-free prefix |
| `Common.Join` | src/services/vehicle.service.ts:30 | no parts join to the empty string; otherwise the result starts with the first part, followed by the separator when more parts follow |
| `Common.SplitJoin` | src/services/vehicle.service.ts:30 | joining a non-empty list of comma-free ids with "," and splitting again returns the list |
| `Common.JoinSplit` | src/services/trip.service.ts:29 | splitting any string and joining the parts with the same separator returns the string |
| `RouteService.FetchRoutes` | src/services/route.service.ts:10-28 | path `/routes`; defaults offset 0 and limit 20; always `filter[type]="3"` and `sort="long_name"`; `filter[long_name]` iff the filter is non-empty, equal to it verbatim |
| `RouteService.FetchRouteById` | src/services/route.service.ts:30-33 | the path is `/routes/` followed by the id, with no parameters |
| `RouteService.DefaultRequest` | src/services/route.service.ts:10-20 | with no options the request asks for the first 20 bus routes sorted by long name |
| `RouteService.ParamCount` | src/services/route.service.ts:15-24 | exactly 4 keys when the filter is empty and 5 otherwise |
| `TripService.FetchTrips` | src/services/trip.service.ts:11-35 | path `/trips`; defaults offset 0 and limit 20; include "route"; sort "-updated_at"; `filter[route]` iff route ids are non-empty; `filter[date]` iff there are no route ids and no free-text filter; never both filters |
| `TripService.FetchTripById` | src/services/trip.service.ts:37-46 | the path is `/trips/` followed by the id, and `include="route"` is the only parameter |
| `TripService.IsoDate` | src/services/trip.service.ts:29 | the date is the longest prefix of the timestamp that contains no `T`: a prefix, `T`-free, and followed by a `T` unless it is the whole string |
| `TripService.DateFilterUnlessNarrowed` | src/services/trip.service.ts:28-31 | `filter[date]` is sent exactly when the route list is absent or empty and the free-text filter is absent or empty |
| `TripService.IsoDateIsFirstTenCharacters` | src/services/trip.service.ts:29 | for a timestamp of the `toISOString` shape, the date sent is its first ten characters, a `YYYY-MM-DD` date |
| `TripService.DefaultRequest` | src/services/trip.service.ts:11-31 | with no options the request asks for the first 20 trips, newest first, dated with today's UTC date |
| `TripService.FreeTextOnlySuppressesDate` | src/services/trip.service.ts:28-31 | the free-text filter is never sent: any two non-empty filters give the same request, and a non-empty filter only removes `filter[date]` |
| `TripService.RouteFilterRecoversIds` | src/services/trip.service.ts:24-26 | splitting the route filter on "," gives back the route ids, when none contains a comma |
| `Pagination.TotalPages` | src/Components/Pagination.tsx:18 | the page count covers all items (`pages*size >= total`), and with items present the last page is not empty (`(pages-1)*size < total`) |
| `Pagination.TotalPagesIsUnique` | src/Components/Pagination.tsx:18 | any page count with those two properties (0 for no items) equals `TotalPages`, so it is exactly the ceiling |
| `Pagination.StartItem` | src/Components/Pagination.tsx:19 | from page 1 on, the first item shown is the one right after the items of all earlier full pages, counted page by page |
| `Pagination.ItemsBeforeIsProduct` | src/Components/Pagination.tsx:19 | the page-by-page count of earlier items equals `(currentPage - 1) * itemsPerPage` |
| `Pagination.EndItem` | src/Components/Pagination.tsx:20 | the last item shown is the smaller of the page's end and the total: at most each, and equal to one of them |
| `Pagination.PrevDisabled` | src/Components/Pagination.tsx:44 | from a page >= 1, previous is disabled exactly when the page it would propose is below 1 |
| `Pagination.PrevPage` | src/Components/Pagination.tsx:43 | previous proposes an earlier page, and next from there leads back |
| `Pagination.NextDisabled` | src/Components/Pagination.tsx:56 | up to the page count, next is disabled exactly when its proposal would be past the end; when disabled, that proposal is the page right after the end |
| `Pagination.NextPage` | src/Components/Pagination.tsx:55 | next proposes a later page whose window starts exactly one page size further on, for every page size |
| `Pagination.WindowInRange` | src/Components/Pagination.tsx:19-20 | for 1 <= page <= total pages: 1 <= start <= end <= total, end <= page*size, and at most `size` items are shown |
| `Pagination.LastPageEndsAtTotal` | src/Components/Pagination.tsx:20 | on the last page the window ends at the last item |
| `Pagination.PrevNavigation` | src/Components/Pagination.tsx:42-44 | previous is disabled exactly on page 1; otherwise it proposes a smaller page that is still >= 1 |
| `Pagination.NavigationStaysInRange` | src/Components/Pagination.tsx:42-60 | next is disabled exactly on the last page; from a page in range, every enabled button proposes a page in range |
| `Pagination.EmptyListEdgeCase` | src/Components/Pagination.tsx:18-20 | with 0 items: 0 pages, start 1, end 0, and next on page 1 is enabled and proposes page 2 |
| `Pagination.ConsecutiveWindowsTile` | src/Components/Pagination.tsx:19-20 | before the last page, the next page's window starts exactly one past this page's window end, so no item is skipped or shown twice |
| `Pagination.NextPastTheEnd` | src/Components/Pagination.tsx:55-57 | from any page beyond the page count, Next is enabled and proposes a page still beyond it |
| `Pagination.SelectedPageSize` | src/Components/Pagination.tsx:31-39 | the selector only ever proposes 5, 10 or 20, never 0 |
| `Selection.Remove` | src/Components/RouteFilter.tsx:59 | the filtered list lacks the id, keeps exactly the other members, and is no longer than the original |
| `Selection.RemoveAbsent` | src/Components/RouteFilter.tsx:59 | filtering out an id that is not selected returns the selection unchanged |
| `Selection.RemoveAppend` | src/Components/RouteFilter.tsx:59 | filtering distributes over concatenation, so the other ids keep their order and multiplicity |
| `Selection.Toggle` | src/Components/RouteFilter.tsx:57-60 | the toggled id's membership flips, and every other id's membership is unchanged |
| `Selection.ToggleKeepsNoDuplicates` | src/Components/RouteFilter.tsx:58-60 | a selection without duplicates stays without duplicates |
| `Selection.ToggleKeepsOthersInOrder` | src/Components/RouteFilter.tsx:58-60 | apart from the toggled id, the selection reads the same before and after, in the same order |
| `Selection.ToggleTwiceRestoresAbsent` | src/Components/RouteFilter.tsx:57-60 | toggling an unselected id twice returns the original selection |
| `Selection.ToggleTwiceMovesPresentToEnd` | src/Components/RouteFilter.tsx:57-60 | toggling a selected id twice moves it to the end |
| `PagedQuery.Flatten` | src/Components/RouteFilter.tsx:53 | no pages show nothing and a single page is shown exactly as it came (several pages: `FlattenPosition`, `FlattenLength`) |
| `PagedQuery.FlattenPosition` | src/Components/RouteFilter.tsx:52-55 | item `j` of page `i` is shown at position (items of pages before `i`) + `j`, so the shown list is the pages in request order |
| `PagedQuery.FlattenConcat` | src/Components/RouteFilter.tsx:53 | the flattening of two page lists is the concatenation of their flattenings |
| `PagedQuery.FlattenAppend` | src/Components/RouteFilter.tsx:29 | loading one more page appends exactly its items after those already shown |
| `PagedQuery.FlattenLength` | src/Components/RouteFilter.tsx:29 | the loaded count is the sum of all page sizes |
| `PagedQuery.ReportedTotal` | src/Components/RouteFilter.tsx:30 | `meta?.total \|\| 0`: the reported total, or 0 when meta or total is absent |
| `PagedQuery.NextPageParam` | src/Components/RouteFilter.tsx:28-33 | a next page exists iff the loaded count is below the last page's total, and its offset is the loaded count |
| `PagedQuery.Displayed` | src/Components/TripFilter.tsx:47-50 | before any data nothing is shown; afterwards the pages are shown concatenated |
| `PagedQuery.TwoPagesOfThirtyFive` | src/Components/RouteFilter.tsx:28-33 | pages of 20 and 15 with total 35: next offset 20 after the first, no next page after the second, 35 items in request order |
| `RouteFilter.PageRequest` | src/Components/RouteFilter.tsx:20-27 | each page asks for the page's offset and 20 routes; the search text is the long-name filter exactly when it is not empty |
| `RouteFilter.FirstPageOfEverySearch` | src/Components/RouteFilter.tsx:21-27 | every search starts at offset 0 with limit 20 |
| `RouteFilter.DisplayedRoutes` | src/Components/RouteFilter.tsx:52-55 | the routes shown are the loaded pages concatenated, or none before the first page |
| `RouteFilter.ToggleRoute` | src/Components/RouteFilter.tsx:57-62 | only the toggled route's membership flips; an unselected route is appended at the end |
| `RouteFilter.ScrollToEnd` | src/Components/RouteFilter.tsx:18-34 | starting at offset 0 and following the proposed offsets, 20 routes at a time, until none is left shows exactly the matching routes, once each and in order, with the loaded count at the reported total |
| `RouteFilter.ToggleRouteProperties` | src/Components/RouteFilter.tsx:57-60 | toggling an unselected route twice is the identity; the other routes keep their order; no duplicates appear |
| `TripFilter.PageRequest` | src/Components/TripFilter.tsx:16-22 | each page asks for the page's offset and 20 trips; every request carries today's `filter[date]` and never `filter[route]` |
| `TripFilter.DisplayedTrips` | src/Components/TripFilter.tsx:47-50 | the trips shown are the loaded pages concatenated, or none before the first page |
| `TripFilter.TripLabel` | src/Components/TripFilter.tsx:106 | the label is the headsign when it is non-empty and the trip id otherwise; it is empty only when both are |
| `TripFilter.ToggleTrip` | src/Components/TripFilter.tsx:52-57 | only the toggled trip's membership flips; an unselected trip is appended at the end |
| `TripFilter.ToggleTripProperties` | src/Components/TripFilter.tsx:52-56 | toggling an unselected trip twice is the identity; the other trips keep their order; no duplicates appear |
| `UseVehicles.Key` | src/hooks/useVehicles.ts:13 | the key is named "vehicles" and the hook's arguments can be read back from it in full |
| `UseVehicles.KeyIsInjective` | src/hooks/useVehicles.ts:13 | two argument tuples share a cache key iff they are equal |
| `UseVehicles.FetchOptions` | src/hooks/useVehicles.ts:14-20 | limit and offset are forwarded unchanged; route and trip ids are exactly the filters' lists |
| `UseVehicles.Request` | src/hooks/useVehicles.ts:14-20 | the request carries the hook's limit and offset, and a route or trip filter iff that filter list is non-empty |
| `UseVehicles.Vehicles` | src/hooks/useVehicles.ts:24 | the vehicles are the response's data list, or empty with no response |
| `UseVehicles.TotalItems` | src/hooks/useVehicles.ts:25 | the reported total (a reported 0 stays 0), or 0 when the response, meta or total is absent |
| `UseVehicles.TotalItemsAgreesWithPickerTotal` | src/hooks/useVehicles.ts:25 | the hook's `??` default and the pickers' `\|\|` default give the same total on every response |
| `UseVehicle.Key` | src/hooks/useVehicle.ts:6 | the key is named "vehicle" and carries the id as given, absent or not |
| `UseVehicle.Enabled` | src/hooks/useVehicle.ts:8 | the query is enabled iff the id is present and non-empty |
| `UseVehicle.Request` | src/hooks/useVehicle.ts:7-8 | a request is issued iff the query is enabled, and then only for the real id, so `id!` never meets null |
| `UseVehicle.SelectedVehicle` | src/hooks/useVehicle.ts:12 | the vehicle is the response's data when there is a response, absent otherwise |
| `UseVehicle.KeysAndPathsFollowTheId` | src/hooks/useVehicle.ts:6-7 | distinct ids get distinct cache keys and distinct request paths |
| `VehicleList.HandleFiltersChange` | src/pages/VehicleList.tsx:32-35 | the new filters are stored and the page returns to 1; page size and selected vehicle are untouched |
| `VehicleList.Step` | src/pages/VehicleList.tsx:232-236 | a route change replaces only the routes and a trip change only the trips, both back to page 1; a page change is applied verbatim; a size change stores the size and returns to page 1; selecting or clearing a vehicle changes only the selected id |
| `VehicleList.Offset` | src/pages/VehicleList.tsx:21 | from page 1 on, the offset skips exactly the items of the earlier pages, and the pagination's first item shown is the one right after it |
| `VehicleList.CanEmit` | src/pages/VehicleList.tsx:228-236 | selections, clicks and closes are always possible; a page change only ever proposes the adjacent page; previous is possible from every page but 1, and page 0 never from page 1; next is possible exactly when the page is not the page count; a page size is only 5, 10 or 20 |
| `VehicleList.VehiclesArgs` | src/pages/VehicleList.tsx:19-23 | the hook's limit is the page size, its offset is `(page-1)*size`, and its filters are the selected route and trip lists |
| `VehicleList.InitialState` | src/pages/VehicleList.tsx:12-25 | the page starts on page 1 with size 5, offset 0, empty selections and no selected vehicle |
| `VehicleList.StepKeepsWellFormed` | src/pages/VehicleList.tsx:228-236 | every event the page can emit keeps the page >= 1 and the size in {5, 10, 20} |
| `VehicleList.PageChangeStaysInRange` | src/pages/VehicleList.tsx:228-236 | for a fixed total, from a page in range every page change the page can emit lands in range again, between 1 and the page count |
| `VehicleList.PageCanRunPastTheEnd` | src/pages/VehicleList.tsx:228-236 | from a page past the page count, the page can emit a move to a page further past it; on the first render, with a total of 0, it can emit page 2 |
| `VehicleList.FilterChangeRestartsAtOffsetZero` | src/pages/VehicleList.tsx:19-35 | after any filter or size change the list is requested from offset 0; a filter change leaves the size unchanged |
| `VehicleList.SelectionIsOrthogonal` | src/pages/VehicleList.tsx:80-116 | selecting or clearing a vehicle never changes page, size, filters or the list query, and commutes with every list event |
| `VehicleList.OffsetsTile` | src/pages/VehicleList.tsx:21 | page 1 has offset 0; each next page's offset is one page size later; offset + 1 is the pagination's first item shown |
| `VehicleList.VehicleListRequest` | src/pages/VehicleList.tsx:19-23 | the request the page sends carries `(page-1)*size` as a non-negative offset and the size as limit, with each filter present iff its selection is non-empty |
| `VehicleList.ToggleRouteThenStep` | src/pages/VehicleList.tsx:52-63 | a route toggle followed by the coordinator's reaction flips only that route, leaves the trips alone, and returns to page 1 |

## Left out

- Rendering is left out because it is presentation only. This covers JSX, styling, the detail modal, the map widget, the loading and error views, and the "N/A" fallbacks for speed and bearing.
- The `IntersectionObserver` wiring of both pickers is left out. It is an event-driven DOM callback. The guard "fetch only when intersecting and `hasNextPage`" is not stated as a separate predicate.
- react-query behaviour is left out because the library owns it. This covers caching and freshness (`staleTime` 30000), retry 1, no refetch on focus, last-key-wins ordering, in-flight suppression, loading/error flags and `refetch`. The pickers' query keys `["routes", search]` and `["trips"]` belong to this cache and are not modelled either.
- The axios transport is left out because it is network I/O and environment configuration. This covers the base URL, the `Accept` and `x-api-key` headers, and the `response.data` unwrapping in the services. A `fetch*` function is modelled as the request it hands to the client.
- The wall clock is left out. `new Date().toISOString()` is the input `nowIso`.
- Display formatting with `toFixed` and `toLocaleString` is left out because it is floating-point and locale formatting.
- Routing and layout (`src/App.tsx`, the layout, the navbar) and the unused `src/types/vehicle.types.ts` are not part of this model. They hold no logic.
- Offsets, limits and pages are JavaScript numbers. They are modelled as integers; fractional or non-finite values are not modelled.
- `PagedQuery.ServePage` is a model of the remote endpoint, not of this application. `RouteFilter.ScrollToEnd` holds only for an endpoint that serves consistent slices and reports the full count. The trip picker runs the same paging (`PagedQuery.NextPageParam`) with its own page request; its scroll is not stated separately.
- Pagination.TotalPages: requires a page size above 0, because JavaScript would divide by zero otherwise. Only 5, 10 or 20 ever reach it.
- TripService.IsoDateIsFirstTenCharacters: covers years 0 to 9999 only. `toISOString` writes other years with six digits and a sign.

=== FILE: api_types.dfy ===
/** The resource documents of the transit API, reduced to the fields the
    dashboard's logic reads (`src/types/api.types.ts`): every resource's id,
    and a trip's headsign, which labels it in the trip picker. Attributes
    and relationships that are only displayed are dropped. */
module ApiTypes {
  import opened Common

  /** `meta` of a list document; the API reports the total item count. */
  datatype Meta = Meta(total: Option<nat>)

  /** A list document `{ data: T[], meta?: { total? } }`. */
  datatype ListResponse<T> = ListResponse(data: seq<T>, meta: Option<Meta>)

  /** A single-resource document `{ data: T, meta? }`. */
  datatype Response<T> = Response(data: T, meta: Option<Meta>)

  datatype Route = Route(id: string)

  datatype Trip = Trip(id: string, headsign: string)

  datatype Vehicle = Vehicle(id: string)
}

=== FILE: common.dfy ===
/** Shared vocabulary of the model: an optional value, and the JavaScript
    `join`/`split` pair that the services use for comma-separated id lists
    and for cutting the date out of an ISO timestamp. */
module Common {

  /** An optional value; JavaScript's `undefined` and `null` are `None`. */
  datatype Option<+T> = None | Some(value: T) {

    /** The value, or `default` when absent: what a destructuring default
        (`{ offset = 0 }`) and the `??` operator both do. */
    function GetOr(default: T): T {
      match this
      case Some(v) => v
      case None => default
    }
  }

  /** `parts.join(sep)`: the parts with one separator between neighbours. */
  function Join(parts: seq<string>, sep: char): (s: string)
    ensures |parts| == 0 ==> s == ""
    ensures |parts| > 0 ==> |parts[0]| <= |s| && s[..|parts[0]|] == parts[0]
    ensures |parts| > 1 ==> |parts[0]| < |s| && s[|parts[0]|] == sep
  {
    if |parts| == 0 then ""
    else if |parts| == 1 then parts[0]
    else parts[0] + [sep] + Join(parts[1..], sep)
  }

  /** `s.split(sep)`: the maximal separator-free runs of `s`, always at least
      one (the empty string splits into `[""]`). */
  function Split(s: string, sep: char): (parts: seq<string>)
    ensures |parts| >= 1
    ensures forall i :: 0 <= i < |parts| ==> sep !in parts[i]
    ensures |parts[0]| <= |s| && parts[0] == s[..|parts[0]|]
    ensures |parts[0]| < |s| ==> s[|parts[0]|] == sep
    decreases |s|
  {
    if |s| == 0 then [""]
    else
      var rest := Split(s[1..], sep);
      if s[0] == sep then [""] + rest
      else [[s[0]] + rest[0]] + rest[1..]
  }

  /** A string without separators splits into itself alone. */
  lemma {:induction false} SplitWithoutSeparator(s: string, sep: char)
    requires sep !in s
    ensures Split(s, sep) == [s]
    decreases |s|
  {
    if |s| > 0 {
      SplitWithoutSeparator(s[1..], sep);
      assert [s[0]] + s[1..] == s;
    }
  }

  /** Splitting stops at the first separator: what precedes it is the first
      part and the rest is split on its own. */
  lemma {:induction false} SplitAtFirstSeparator(a: string, b: string, sep: char)
    requires sep !in a
    ensures Split(a + [sep] + b, sep) == [a] + Split(b, sep)
    decreases |a|
  {
    var s := a + [sep] + b;
    if |a| == 0 {
      assert s[0] == sep;
      assert s[1..] == b;
    } else {
      assert s[0] == a[0];
      assert s[1..] == a[1..] + [sep] + b;
      SplitAtFirstSeparator(a[1..], b, sep);
      assert [a[0]] + a[1..] == a;
    }
  }

  /** Round trip one way: a non-empty list of separator-free parts survives
      joining and splitting again. */
  lemma {:induction false} SplitJoin(parts: seq<string>, sep: char)
    requires |parts| >= 1
    requires forall i :: 0 <= i < |parts| ==> sep !in parts[i]
    ensures Split(Join(parts, sep), sep) == parts
    decreases |parts|
  {
    if |parts| == 1 {
      SplitWithoutSeparator(parts[0], sep);
    } else {
      SplitJoin(parts[1..], sep);
      SplitAtFirstSeparator(parts[0], Join(parts[1..], sep), sep);
      assert [parts[0]] + parts[1..] == parts;
    }
  }

  /** Round trip the other way: joining the parts of any string with the
      separator it was split on gives the string back. */
  lemma {:induction false} JoinSplit(s: string, sep: char)
    ensures Join(Split(s, sep), sep) == s
    decreases |s|
  {
    if |s| > 0 {
      JoinSplit(s[1..], sep);
      var rest := Split(s[1..], sep);
      if s[0] == sep {
        var parts := [""] + rest;
        assert parts[1..] == rest;
        assert Join(parts, sep) == "" + [sep] + Join(rest, sep);
        assert [s[0]] + s[1..] == s;
      } else {
        var parts := [[s[0]] + rest[0]] + rest[1..];
        assert parts[0] == [s[0]] + rest[0];
        assert parts[1..] == rest[1..];
        if |rest| == 1 {
          assert Join(rest, sep) == rest[0];
          assert [s[0]] + s[1..] == s;
        } else {
          assert Join(rest, sep) == rest[0] + [sep] + Join(rest[1..], sep);
          assert Join(parts, sep) == [s[0]] + rest[0] + [sep] + Join(rest[1..], sep);
          assert [s[0]] + s[1..] == s;
        }
      }
    }
  }
}

=== FILE: http_client.dfy ===
/** The HTTP client adapter (`src/helpers/http-client.ts`): a GET request is
    a path plus a parameter map, and the response interceptor passes
    successes through and turns every failure into one error message taken
    from the first JSON:API v1.0 error object. The transport, base URL and
    headers are not modelled: a request is the value handed to it. */
module HttpClient {
  import opened Common
  import opened QueryParams

  /** `api.get(path, { params })`; only GET is used. */
  datatype Request = Get(path: string, params: Params)

  /** A JSON:API error object; only `detail` is read. */
  datatype ErrorObject = ErrorObject(detail: Option<string>)

  /** The body of a failed response, `{ errors?: [...] }`. */
  datatype ErrorBody = ErrorBody(errors: Option<seq<ErrorObject>>)

  /** `error.response`: absent for a network failure. */
  datatype ErrorResponse = ErrorResponse(data: Option<ErrorBody>)

  /** What the transport rejects with. */
  datatype TransportError = TransportError(response: Option<ErrorResponse>)

  /** What the transport settles with, before the interceptor. */
  datatype Outcome<T> = Received(body: T) | Rejected(error: TransportError)

  /** What a caller of the client observes, after the interceptor. */
  datatype Result<T> = Success(value: T) | Failure(message: string)

  const GenericMessage := "An error occurred"

  /** `error.response?.data?.errors?.[0]?.detail`. */
  function FirstDetail(e: TransportError): (d: Option<string>)
    ensures d.Some? <==> && e.response.Some? && e.response.value.data.Some?
                         && e.response.value.data.value.errors.Some?
                         && |e.response.value.data.value.errors.value| > 0
                         && e.response.value.data.value.errors.value[0].detail.Some?
    ensures d.Some? ==> d == e.response.value.data.value.errors.value[0].detail
  {
    if e.response.None? then None
    else if e.response.value.data.None? then None
    else if e.response.value.data.value.errors.None? then None
    else if |e.response.value.data.value.errors.value| == 0 then None
    else e.response.value.data.value.errors.value[0].detail
  }

  /** The interceptor's message: the first error's `detail`, or the generic
      message when that is missing or empty (`||` treats "" as false). */
  function ErrorMessage(e: TransportError): (msg: string)
    ensures msg != ""
    ensures msg == GenericMessage || FirstDetail(e) == Some(msg)
    ensures FirstDetail(e).Some? && FirstDetail(e).value != "" ==> msg == FirstDetail(e).value
  {
    match FirstDetail(e)
    case Some(d) => if d != "" then d else GenericMessage
    case None => GenericMessage
  }

  /** The response interceptor: successes unchanged, failures rejected with
      an error carrying `ErrorMessage`. */
  function Intercept<T>(outcome: Outcome<T>): (r: Result<T>)
    ensures r.Success? <==> outcome.Received?
    ensures outcome.Received? ==> r.value == outcome.body
    ensures r.Failure? ==> r.message != ""
    ensures outcome.Rejected? ==> r == Failure(ErrorMessage(outcome.error))
  {
    match outcome
    case Received(body) => Success(body)
    case Rejected(e) => Failure(ErrorMessage(e))
  }

  /** Every way of lacking a usable first detail yields the generic
      message: no response, no body, no `errors`, an empty `errors`, a first
      entry without `detail`, or an empty `detail`. */
  lemma GenericMessageCases(d: Option<string>, rest: seq<ErrorObject>)
    requires d.None? || d == Some("")
    ensures ErrorMessage(TransportError(None)) == GenericMessage
    ensures ErrorMessage(TransportError(Some(ErrorResponse(None)))) == GenericMessage
    ensures ErrorMessage(TransportError(Some(ErrorResponse(Some(ErrorBody(None)))))) == GenericMessage
    ensures ErrorMessage(TransportError(Some(ErrorResponse(Some(ErrorBody(Some([]))))))) == GenericMessage
    ensures ErrorMessage(TransportError(Some(ErrorResponse(Some(ErrorBody(Some([ErrorObject(d)] + rest))))))) == GenericMessage
  {
  }

  /** A remote error body surfaces its first detail verbatim, e.g.
      `{errors:[{detail:"Vehicle not found"}]}` gives "Vehicle not found". */
  lemma RemoteDetailSurfaces(detail: string, rest: seq<ErrorObject>)
    requires detail != ""
    ensures Intercept<int>(Rejected(TransportError(Some(ErrorResponse(Some(ErrorBody(Some([ErrorObject(Some(detail))] + rest))))))))
            == Failure(detail)
  {
  }

  /** Only the first error entry is consulted: bodies that agree on it give
      the same message whatever follows. */
  lemma OnlyFirstErrorCounts(first: ErrorObject, rest1: seq<ErrorObject>, rest2: seq<ErrorObject>)
    ensures ErrorMessage(TransportError(Some(ErrorResponse(Some(ErrorBody(Some([first] + rest1)))))))
         == ErrorMessage(TransportError(Some(ErrorResponse(Some(ErrorBody(Some([first] + rest2)))))))
  {
    assert ([first] + rest1)[0] == first;
    assert ([first] + rest2)[0] == first;
  }
}

=== FILE: paged_query.dfy ===
/** The accumulated paging both filter pickers run (`useInfiniteQuery` in
    `src/Components/RouteFilter.tsx` and `src/Components/TripFilter.tsx`):
    the loaded pages are shown as one in-order list, and the next page is
    requested at an offset equal to the number of items loaded so far, only
    while that number is below the total the last page reported. */
module PagedQuery {
  import opened Common
  import opened ApiTypes

  /** `pages.flatMap((p) => p.data)`: nothing before the first page, and a
      single page shown exactly as it came; where every item of several
      pages lands is `FlattenPosition`, and how many there are is
      `FlattenLength`. */
  function Flatten<T>(pages: seq<ListResponse<T>>): (items: seq<T>)
    ensures |pages| == 0 ==> items == []
    ensures |pages| == 1 ==> items == pages[0].data
  {
    if |pages| == 0 then [] else pages[0].data + Flatten(pages[1..])
  }

  /** `lastPage.meta?.total || 0`: an absent total, like a zero one, is 0. */
  function ReportedTotal<T>(page: ListResponse<T>): (total: nat)
    ensures page.meta.Some? && page.meta.value.total.Some? ==> total == page.meta.value.total.value
    ensures page.meta.None? || page.meta.value.total.None? ==> total == 0
  {
    match page.meta
    case Some(Meta(Some(t))) => t
    case _ => 0
  }

  /** `getNextPageParam(lastPage, allPages)`; react-query only asks once a
      page has arrived, so `pages` is never empty. */
  function NextPageParam<T>(pages: seq<ListResponse<T>>): (next: Option<nat>)
    requires |pages| > 0
    ensures next.Some? <==> |Flatten(pages)| < ReportedTotal(pages[|pages| - 1])
    ensures next.Some? ==> next.value == |Flatten(pages)|
  {
    var loaded := |Flatten(pages)|;
    if loaded < ReportedTotal(pages[|pages| - 1]) then Some(loaded) else None
  }

  /** `data?.pages?.flatMap((page) => page.data) ?? []`. */
  function Displayed<T>(pages: Option<seq<ListResponse<T>>>): (items: seq<T>)
    ensures pages.None? ==> items == []
    ensures pages.Some? ==> items == Flatten(pages.value)
  {
    match pages
    case Some(ps) => Flatten(ps)
    case None => []
  }

  /** Loading one more page appends its items after everything shown. */
  lemma {:induction false} FlattenAppend<T>(pages: seq<ListResponse<T>>, page: ListResponse<T>)
    ensures Flatten(pages + [page]) == Flatten(pages) + page.data
  {
    if |pages| == 0 {
      assert [page][1..] == [];
      assert page.data + [] == page.data;
    } else {
      assert (pages + [page])[0] == pages[0];
      assert (pages + [page])[1..] == pages[1..] + [page];
      FlattenAppend(pages[1..], page);
    }
  }

  /** The number of items loaded is the sum of the page sizes. */
  function LoadedCount<T>(pages: seq<ListResponse<T>>): nat
  {
    if |pages| == 0 then 0 else |pages[0].data| + LoadedCount(pages[1..])
  }

  /** The flattened list has exactly as many items as the pages hold, so the
      next offset counts every item of every page. */
  lemma {:induction false} FlattenLength<T>(pages: seq<ListResponse<T>>)
    ensures |Flatten(pages)| == LoadedCount(pages)
  {
    if |pages| > 0 {
      FlattenLength(pages[1..]);
    }
  }

  /** Flattening distributes over concatenation of page lists. */
  lemma {:induction false} FlattenConcat<T>(a: seq<ListResponse<T>>, b: seq<ListResponse<T>>)
    ensures Flatten(a + b) == Flatten(a) + Flatten(b)
  {
    if |a| == 0 {
      assert a + b == b;
    } else {
      FlattenConcat(a[1..], b);
      assert (a + b)[0] == a[0];
      assert (a + b)[1..] == a[1..] + b;
    }
  }

  /** The list shown is in request order: item `j` of page `i` sits right
      after every item of the pages before it. */
  lemma {:induction false} FlattenPosition<T>(pages: seq<ListResponse<T>>, i: nat, j: nat)
    requires i < |pages| && j < |pages[i].data|
    ensures |Flatten(pages[..i])| + j < |Flatten(pages)|
    ensures Flatten(pages)[|Flatten(pages[..i])| + j] == pages[i].data[j]
  {
    assert pages == pages[..i] + ([pages[i]] + pages[i + 1..]);
    FlattenConcat(pages[..i], [pages[i]] + pages[i + 1..]);
    assert ([pages[i]] + pages[i + 1..])[0] == pages[i];
    assert ([pages[i]] + pages[i + 1..])[1..] == pages[i + 1..];
  }

  /** Two pages of 20 and 15 items with a reported total of 35: after the
      first there is a next page at offset 20, after the second there is
      none, and the 35 items are shown in request order. */
  lemma TwoPagesOfThirtyFive<T>(first: seq<T>, second: seq<T>)
    requires |first| == 20 && |second| == 15
    ensures NextPageParam([ListResponse(first, Some(Meta(Some(35))))]) == Some(20)
    ensures NextPageParam([ListResponse(first, Some(Meta(Some(35)))), ListResponse(second, Some(Meta(Some(35))))]) == None
    ensures Flatten([ListResponse(first, Some(Meta(Some(35)))), ListResponse(second, Some(Meta(Some(35))))]) == first + second
  {
    var p1 := ListResponse(first, Some(Meta(Some(35))));
    var p2 := ListResponse(second, Some(Meta(Some(35))));
    FlattenAppend([p1], p2);
    FlattenAppend([], p1);
    assert [p1] == [] + [p1];
    assert [p1, p2] == [p1] + [p2];
  }

  /** A model of the remote list endpoint (not of this application): it
      answers `page[offset]`/`page[limit]` with that slice of the full list
      and reports the full count as the total. */
  function ServePage<T>(all: seq<T>, offset: nat, limit: nat): (page: ListResponse<T>)
    ensures offset <= |all| ==> page.data == all[offset..if offset + limit <= |all| then offset + limit else |all|]
    ensures ReportedTotal(page) == |all|
  {
    var lo := if offset <= |all| then offset else |all|;
    var hi := if offset + limit <= |all| then offset + limit else |all|;
    ListResponse(all[lo..if lo <= hi then hi else lo], Some(Meta(Some(|all|))))
  }
}

=== FILE: pagination.dfy ===
/** The pagination control (`src/Components/Pagination.tsx`): total pages,
    the "Showing start-end of total" window, when the previous/next buttons
    are disabled and which page they propose, and the page-size choices.
    The current page is an `int` because the coordinator stores whatever
    page it is handed. */
module Pagination {

  /** `Math.ceil(totalItems / itemsPerPage)` on non-negative integers. */
  function TotalPages(totalItems: nat, itemsPerPage: nat): (pages: nat)
    requires itemsPerPage > 0
    ensures pages * itemsPerPage >= totalItems
    ensures totalItems > 0 ==> (pages - 1) * itemsPerPage < totalItems
  {
    var q := (totalItems + itemsPerPage - 1) / itemsPerPage;
    var r := (totalItems + itemsPerPage - 1) % itemsPerPage;
    assert q * itemsPerPage + r == totalItems + itemsPerPage - 1;
    assert (q - 1) * itemsPerPage == q * itemsPerPage - itemsPerPage;
    q
  }

  /** The number of items on the full pages before `page`, counted page by
      page: none before page 1, and one more page's worth for each later
      page. */
  function ItemsBefore(page: int, itemsPerPage: nat): nat
    decreases page
  {
    if page <= 1 then 0 else ItemsBefore(page - 1, itemsPerPage) + itemsPerPage
  }

  /** Counting page by page agrees with the product the source computes. */
  lemma {:induction false} ItemsBeforeIsProduct(page: int, itemsPerPage: nat)
    ensures page >= 1 ==> ItemsBefore(page, itemsPerPage) == (page - 1) * itemsPerPage
    decreases page
  {
    if page > 1 {
      ItemsBeforeIsProduct(page - 1, itemsPerPage);
      assert (page - 1) * itemsPerPage == (page - 2) * itemsPerPage + itemsPerPage;
    }
  }

  /** First item shown, `(currentPage - 1) * itemsPerPage + 1`: the item
      right after every item of the earlier pages. */
  function StartItem(currentPage: int, itemsPerPage: nat): (start: int)
    ensures currentPage >= 1 ==> start == ItemsBefore(currentPage, itemsPerPage) + 1
  {
    ItemsBeforeIsProduct(currentPage, itemsPerPage);
    (currentPage - 1) * itemsPerPage + 1
  }

  /** Last item shown, `Math.min(currentPage * itemsPerPage, totalItems)`:
      the end of the current page, cut off at the last item. */
  function EndItem(currentPage: int, totalItems: nat, itemsPerPage: nat): (end: int)
    ensures end <= totalItems && end <= currentPage * itemsPerPage
    ensures end == totalItems || end == currentPage * itemsPerPage
  {
    if currentPage * itemsPerPage < totalItems then currentPage * itemsPerPage else totalItems
  }

  /** `currentPage === 1`: from a real page, previous is disabled exactly
      when the page it would propose is not a page. */
  function PrevDisabled(currentPage: int): (disabled: bool)
    ensures currentPage >= 1 ==> (disabled <==> PrevPage(currentPage) < 1)
  {
    currentPage == 1
  }

  /** `currentPage === totalPages`: equality, not `>=`. Up to the last page,
      next is disabled exactly when the page it would propose is past the
      end, and when disabled that page is the one right after the end. */
  function NextDisabled(currentPage: int, totalPages: nat): (disabled: bool)
    ensures currentPage <= totalPages ==> (disabled <==> NextPage(currentPage) > totalPages)
    ensures disabled ==> NextPage(currentPage) == totalPages + 1
  {
    currentPage == totalPages
  }

  /** The page the previous button proposes: an earlier page, from which
      the next button leads back. */
  function PrevPage(currentPage: int): (page: int)
    ensures page < currentPage
    ensures NextPage(page) == currentPage
  {
    currentPage - 1
  }

  /** The page the next button proposes: a later page, whose window starts
      one page size further on. */
  function NextPage(currentPage: int): (page: int)
    ensures page > currentPage
    ensures forall itemsPerPage: nat :: StartItem(page, itemsPerPage) == StartItem(currentPage, itemsPerPage) + itemsPerPage
  {
    currentPage + 1
  }

  /** The options of the page-size selector, in display order. */
  const PageSizeChoices: seq<nat> := [5, 10, 20]

  predicate IsPageSizeChoice(n: int)
  {
    n == 5 || n == 10 || n == 20
  }

  /** `Number(e.target.value)` for the option the user picked: only ever
      5, 10 or 20, and always a valid divisor. */
  function SelectedPageSize(option: nat): (size: nat)
    requires option < |PageSizeChoices|
    ensures IsPageSizeChoice(size)
    ensures size > 0
  {
    PageSizeChoices[option]
  }

  /** `TotalPages` is THE ceiling: the only count of pages that covers all
      items without an empty last page. */
  lemma {:induction false} TotalPagesIsUnique(totalItems: nat, itemsPerPage: nat, pages: nat)
    requires itemsPerPage > 0
    requires pages * itemsPerPage >= totalItems
    requires totalItems > 0 ==> (pages - 1) * itemsPerPage < totalItems
    requires totalItems == 0 ==> pages == 0
    ensures pages == TotalPages(totalItems, itemsPerPage)
  {
    var t := TotalPages(totalItems, itemsPerPage);
    if totalItems > 0 {
      if pages < t {
        MultiplyMonotone(pages, t - 1, itemsPerPage);
      } else if pages > t {
        MultiplyMonotone(t, pages - 1, itemsPerPage);
      }
    } else {
      assert (itemsPerPage - 1) / itemsPerPage == 0;
    }
  }

  lemma MultiplyMonotone(a: int, b: int, k: nat)
    requires a <= b
    ensures a * k <= b * k
  {
    assert b * k - a * k == (b - a) * k;
  }

  /** For every page in range the window is a non-empty run of at most
      `itemsPerPage` items inside `1..totalItems`, ending before the next
      page's window would start. */
  lemma {:induction false} WindowInRange(currentPage: int, totalItems: nat, itemsPerPage: nat)
    requires itemsPerPage > 0
    requires 1 <= currentPage <= TotalPages(totalItems, itemsPerPage)
    ensures 1 <= StartItem(currentPage, itemsPerPage)
    ensures StartItem(currentPage, itemsPerPage) <= EndItem(currentPage, totalItems, itemsPerPage)
    ensures EndItem(currentPage, totalItems, itemsPerPage) <= totalItems
    ensures EndItem(currentPage, totalItems, itemsPerPage) <= currentPage * itemsPerPage
    ensures EndItem(currentPage, totalItems, itemsPerPage) - StartItem(currentPage, itemsPerPage) + 1 <= itemsPerPage
  {
    var t := TotalPages(totalItems, itemsPerPage);
    assert totalItems > 0;
    MultiplyMonotone(currentPage - 1, t - 1, itemsPerPage);
    MultiplyMonotone(0, currentPage - 1, itemsPerPage);
    assert currentPage * itemsPerPage == (currentPage - 1) * itemsPerPage + itemsPerPage;
  }

  /** On the last page the window ends at the last item. */
  lemma LastPageEndsAtTotal(totalItems: nat, itemsPerPage: nat)
    requires itemsPerPage > 0
    ensures EndItem(TotalPages(totalItems, itemsPerPage), totalItems, itemsPerPage) == totalItems
  {
  }

  /** Previous is disabled exactly on page 1; from any later page it
      proposes a page that is still at least 1. */
  lemma PrevNavigation(currentPage: int)
    requires currentPage >= 1
    ensures PrevDisabled(currentPage) <==> currentPage == 1
    ensures !PrevDisabled(currentPage) ==> 1 <= PrevPage(currentPage) < currentPage
  {
  }

  /** Starting inside `1..totalPages`, an enabled button always proposes a
      page inside `1..totalPages` again, and next is disabled exactly on the
      last page. */
  lemma NavigationStaysInRange(currentPage: int, totalItems: nat, itemsPerPage: nat)
    requires itemsPerPage > 0
    requires 1 <= currentPage <= TotalPages(totalItems, itemsPerPage)
    ensures NextDisabled(currentPage, TotalPages(totalItems, itemsPerPage))
            <==> currentPage == TotalPages(totalItems, itemsPerPage)
    ensures !PrevDisabled(currentPage) ==> 1 <= PrevPage(currentPage) <= TotalPages(totalItems, itemsPerPage)
    ensures !NextDisabled(currentPage, TotalPages(totalItems, itemsPerPage))
            ==> 1 <= NextPage(currentPage) <= TotalPages(totalItems, itemsPerPage)
  {
  }

  /** With no items there are no pages and the window reads "1-0 of 0";
      page 1 is then not the last page, so next stays enabled and proposes
      page 2. */
  lemma EmptyListEdgeCase(itemsPerPage: nat)
    requires itemsPerPage > 0
    ensures TotalPages(0, itemsPerPage) == 0
    ensures StartItem(1, itemsPerPage) == 1
    ensures EndItem(1, 0, itemsPerPage) == 0
    ensures !NextDisabled(1, TotalPages(0, itemsPerPage))
    ensures NextPage(1) == 2
  {
    assert (itemsPerPage - 1) / itemsPerPage == 0;
  }

  /** Consecutive windows tile the list: before the last page, the next
      page's window starts right after this page's window ends, so no item
      is skipped or shown twice. */
  lemma ConsecutiveWindowsTile(currentPage: int, totalItems: nat, itemsPerPage: nat)
    requires itemsPerPage > 0
    requires 1 <= currentPage < TotalPages(totalItems, itemsPerPage)
    ensures EndItem(currentPage, totalItems, itemsPerPage) + 1 == StartItem(currentPage + 1, itemsPerPage)
  {
    var t := TotalPages(totalItems, itemsPerPage);
    MultiplyMonotone(currentPage, t - 1, itemsPerPage);
  }

  /** Past the last page nothing disables next: its test is equality with
      the page count, so from any page beyond it next stays enabled and
      proposes a page further beyond. With a total of 0, which the page
      sees before its first response, that is every page. */
  lemma NextPastTheEnd(currentPage: int, totalItems: nat, itemsPerPage: nat)
    requires itemsPerPage > 0
    requires currentPage > TotalPages(totalItems, itemsPerPage)
    ensures !NextDisabled(currentPage, TotalPages(totalItems, itemsPerPage))
    ensures NextPage(currentPage) > TotalPages(totalItems, itemsPerPage)
  {
  }
}

=== FILE: query_params.dfy ===
/** Query-parameter names and values in the dialect of JSON:API v1.0:
    `page[...]` (Pagination), `filter[...]` (Filtering), `sort` with a
    leading `-` for descending order (Sorting) and `include` (Inclusion of
    Related Resources). */
module QueryParams {
  import opened Common

  /** A parameter value: numbers are serialised by the HTTP client, strings
      are sent as they are. */
  datatype Value = Num(n: int) | Text(s: string)

  type Params = map<string, Value>

  const PageOffset := "page[offset]"
  const PageLimit := "page[limit]"
  const Include := "include"
  const Sort := "sort"
  const FilterType := "filter[type]"
  const FilterLongName := "filter[long_name]"
  const FilterRoute := "filter[route]"
  const FilterTrip := "filter[trip]"
  const FilterDate := "filter[date]"

  /** `ids?.length` is truthy: the only falsy cases are an absent list
      (`undefined`) and an empty one (length 0). */
  function HasIds(ids: Option<seq<string>>): (has: bool)
    ensures !has <==> ids == None || ids == Some([])
  {
    ids.Some? && |ids.value| > 0
  }

  /** Separator of the id lists in `filter[route]` and `filter[trip]`. */
  const IdSeparator := ','
}

=== FILE: route_filter.dfy ===
/** The route picker (`src/Components/RouteFilter.tsx`): its request for
    each page of a search, the routes it shows, and its toggle. */
module RouteFilter {
  import opened Common
  import opened QueryParams
  import opened ApiTypes
  import opened HttpClient
  import RouteService
  import PagedQuery
  import Selection

  /** Routes are requested 20 at a time. */
  const RoutePageLimit := 20
  /** Every search starts at offset 0. */
  const InitialPageParam: nat := 0

  /** The `fetchRoutes` options of one page of a search. */
  function RequestOptions(search: string, pageParam: nat): RouteService.Options
  {
    RouteService.Options(Some(pageParam), Some(RoutePageLimit), Some(search))
  }

  /** The request of one page of a search: the page's offset, 20 routes, and
      the search text as the long-name filter when it is not empty. */
  function PageRequest(search: string, pageParam: nat): (req: Request)
    ensures req.path == "/routes"
    ensures PageOffset in req.params && req.params[PageOffset] == Num(pageParam)
    ensures PageLimit in req.params && req.params[PageLimit] == Num(20)
    ensures FilterLongName in req.params <==> search != ""
    ensures search != "" ==> req.params[FilterLongName] == Text(search)
  {
    RouteService.FetchRoutes(RequestOptions(search, pageParam))
  }

  /** Every search term starts at offset 0 with a limit of 20. */
  lemma FirstPageOfEverySearch(search: string)
    ensures PageRequest(search, InitialPageParam).params[PageOffset] == Num(0)
    ensures PageRequest(search, InitialPageParam).params[PageLimit] == Num(20)
  {
  }

  /** The routes listed: the loaded pages concatenated in order, or none
      before the first page arrives. */
  function DisplayedRoutes(pages: Option<seq<ListResponse<Route>>>): (routes: seq<Route>)
    ensures pages.None? ==> routes == []
    ensures pages.Some? ==> routes == PagedQuery.Flatten(pages.value)
  {
    PagedQuery.Displayed(pages)
  }

  /** `toggleRoute(routeId)`: the new selection handed to `onChange`. */
  function ToggleRoute(selectedRoutes: seq<string>, routeId: string): (r: seq<string>)
    ensures routeId in r <==> routeId !in selectedRoutes
    ensures forall x :: x != routeId ==> (x in r <==> x in selectedRoutes)
    ensures routeId !in selectedRoutes ==> r == selectedRoutes + [routeId]
  {
    Selection.Toggle(selectedRoutes, routeId)
  }

  /** Toggling an unselected route twice is the identity, and the other
      routes keep their order. */
  lemma {:induction false} ToggleRouteProperties(selectedRoutes: seq<string>, routeId: string)
    ensures routeId !in selectedRoutes ==> ToggleRoute(ToggleRoute(selectedRoutes, routeId), routeId) == selectedRoutes
    ensures Selection.Remove(ToggleRoute(selectedRoutes, routeId), routeId) == Selection.Remove(selectedRoutes, routeId)
    ensures Selection.NoDuplicates(selectedRoutes) ==> Selection.NoDuplicates(ToggleRoute(selectedRoutes, routeId))
  {
    if routeId !in selectedRoutes {
      Selection.ToggleTwiceRestoresAbsent(selectedRoutes, routeId);
    }
    Selection.ToggleKeepsOthersInOrder(selectedRoutes, routeId);
    if Selection.NoDuplicates(selectedRoutes) {
      Selection.ToggleKeepsNoDuplicates(selectedRoutes, routeId);
    }
  }

  /** Scrolling the route list to its end: the first page at offset 0, then
      one page at each offset `getNextPageParam` proposes until it proposes
      none. Against an endpoint that serves consistent slices of the
      `matching` routes, the list shown is then exactly those routes, each
      once and in order, and the loaded count has reached the reported
      total, which is what makes the picker ask for no further page. */
  method ScrollToEnd(matching: seq<Route>) returns (pages: seq<ListResponse<Route>>)
    ensures DisplayedRoutes(Some(pages)) == matching
    ensures |pages| > 0 && PagedQuery.ReportedTotal(pages[|pages| - 1]) <= |PagedQuery.Flatten(pages)|
  {
    pages := [PagedQuery.ServePage(matching, InitialPageParam, RoutePageLimit)];
    assert PagedQuery.Flatten(pages) == PagedQuery.Flatten([]) + pages[0].data by {
      PagedQuery.FlattenAppend([], pages[0]);
      assert [] + [pages[0]] == pages;
    }
    var next := PagedQuery.NextPageParam(pages);
    while next.Some?
      invariant |pages| > 0
      invariant |PagedQuery.Flatten(pages)| <= |matching|
      invariant PagedQuery.Flatten(pages) == matching[..|PagedQuery.Flatten(pages)|]
      invariant PagedQuery.ReportedTotal(pages[|pages| - 1]) == |matching|
      invariant next == PagedQuery.NextPageParam(pages)
      decreases |matching| - |PagedQuery.Flatten(pages)|
    {
      var page := PagedQuery.ServePage(matching, next.value, RoutePageLimit);
      PagedQuery.FlattenAppend(pages, page);
      pages := pages + [page];
      next := PagedQuery.NextPageParam(pages);
    }
  }
}

=== FILE: route_service.dfy ===
/** The route requests (`src/services/route.service.ts`) as pure builders of
    the GET request handed to the HTTP client. */
module RouteService {
  import opened Common
  import opened QueryParams
  import opened HttpClient

  /** `FetchRoutesOptions`: every field optional. */
  datatype Options = Options(offset: Option<int>, limit: Option<int>, filter: Option<string>)

  const DefaultOffset := 0
  const DefaultLimit := 20
  /** The transit-mode category the route list is restricted to (bus). */
  const BusRouteType := "3"
  const ByLongName := "long_name"

  /** The keys every route list request carries. */
  function BaseKeys(): set<string>
  {
    {PageOffset, PageLimit, FilterType, Sort}
  }

  /** `fetchRoutes(options)`: the page window, bus routes only, sorted by
      long name ascending, and a long-name filter when the search text is
      not empty. */
  function FetchRoutes(opts: Options): (req: Request)
    ensures req.path == "/routes"
    ensures req.params.Keys == BaseKeys() + (if opts.filter.GetOr("") != "" then {FilterLongName} else {})
    ensures req.params[PageOffset] == Num(opts.offset.GetOr(DefaultOffset))
    ensures req.params[PageLimit] == Num(opts.limit.GetOr(DefaultLimit))
    ensures req.params[FilterType] == Text(BusRouteType)
    ensures req.params[Sort] == Text(ByLongName)
    ensures FilterLongName in req.params ==> req.params[FilterLongName] == Text(opts.filter.value)
  {
    var filter := opts.filter.GetOr("");
    var base := map[PageOffset := Num(opts.offset.GetOr(DefaultOffset)),
                     PageLimit := Num(opts.limit.GetOr(DefaultLimit)),
                     FilterType := Text(BusRouteType),
                     Sort := Text(ByLongName)];
    Get("/routes", if filter != "" then base[FilterLongName := Text(filter)] else base)
  }

  /** `fetchRouteById(id)`: the route's own path and no parameters. */
  function FetchRouteById(id: string): (req: Request)
    ensures |req.path| >= 8 && req.path[..8] == "/routes/" && req.path[8..] == id
    ensures |req.params| == 0
  {
    Get("/routes/" + id, map[])
  }

  /** Called with no options, the request asks for the first 20 bus routes
      by long name. */
  lemma DefaultRequest()
    ensures FetchRoutes(Options(None, None, None))
         == Get("/routes", map[PageOffset := Num(0), PageLimit := Num(20),
                               FilterType := Text("3"), Sort := Text("long_name")])
  {
  }

  /** The request has exactly four keys when the search text is empty and
      five otherwise. */
  lemma ParamCount(opts: Options)
    ensures |FetchRoutes(opts).params| == if opts.filter.GetOr("") == "" then 4 else 5
  {
    var keys := FetchRoutes(opts).params.Keys;
    assert |FetchRoutes(opts).params| == |keys|;
    if opts.filter.GetOr("") == "" {
      assert keys == {PageOffset, PageLimit, FilterType, Sort};
    } else {
      assert keys == {PageOffset, PageLimit, FilterType, Sort, FilterLongName};
    }
  }
}

=== FILE: selection.dfy ===
/** The toggle rule both filter pickers apply to their list of selected ids
    (`toggleRoute` in `src/Components/RouteFilter.tsx`, `toggleTrip` in
    `src/Components/TripFilter.tsx`): a selected id is filtered out, an
    unselected one is appended. Membership, not position, decides. */
module Selection {

  /** `selected.filter((x) => x !== id)`. */
  function Remove(selected: seq<string>, id: string): (r: seq<string>)
    ensures id !in r
    ensures forall x :: x != id ==> (x in r <==> x in selected)
    ensures |r| <= |selected|
  {
    if |selected| == 0 then []
    else (if selected[0] == id then [] else [selected[0]]) + Remove(selected[1..], id)
  }

  /** The toggle: remove every occurrence of a selected id, append an
      unselected one at the end. */
  function Toggle(selected: seq<string>, id: string): (r: seq<string>)
    ensures id in r <==> id !in selected
    ensures forall x :: x != id ==> (x in r <==> x in selected)
  {
    if id in selected then Remove(selected, id) else selected + [id]
  }

  /** No id is listed twice. */
  predicate NoDuplicates(s: seq<string>)
  {
    forall i, j :: 0 <= i < j < |s| ==> s[i] != s[j]
  }

  /** Removing an id that is not there changes nothing. */
  lemma {:induction false} RemoveAbsent(selected: seq<string>, id: string)
    requires id !in selected
    ensures Remove(selected, id) == selected
  {
    if |selected| > 0 {
      RemoveAbsent(selected[1..], id);
      assert [selected[0]] + selected[1..] == selected;
    }
  }

  /** Filtering distributes over concatenation. */
  lemma {:induction false} RemoveAppend(a: seq<string>, b: seq<string>, id: string)
    ensures Remove(a + b, id) == Remove(a, id) + Remove(b, id)
  {
    if |a| > 0 {
      RemoveAppend(a[1..], b, id);
      assert (a + b)[0] == a[0];
      assert (a + b)[1..] == a[1..] + b;
    } else {
      assert a + b == b;
    }
  }

  /** Filtering never introduces duplicates. */
  lemma {:induction false} RemoveKeepsNoDuplicates(selected: seq<string>, id: string)
    requires NoDuplicates(selected)
    ensures NoDuplicates(Remove(selected, id))
  {
    if |selected| > 0 {
      var tail := selected[1..];
      assert NoDuplicates(tail) by {
        forall i, j | 0 <= i < j < |tail| ensures tail[i] != tail[j] {
          assert tail[i] == selected[i + 1] && tail[j] == selected[j + 1];
        }
      }
      RemoveKeepsNoDuplicates(tail, id);
      if selected[0] != id {
        assert selected[0] !in tail by {
          forall j | 0 <= j < |tail| ensures tail[j] != selected[0] {
            assert tail[j] == selected[j + 1];
          }
        }
        ConsKeepsNoDuplicates(selected[0], Remove(tail, id));
      }
    }
  }

  lemma ConsKeepsNoDuplicates(x: string, s: seq<string>)
    requires x !in s
    requires NoDuplicates(s)
    ensures NoDuplicates([x] + s)
  {
    var r := [x] + s;
    forall i, j | 0 <= i < j < |r| ensures r[i] != r[j] {
      assert r[j] == s[j - 1];
      if i > 0 {
        assert r[i] == s[i - 1];
      }
    }
  }

  /** A selection without duplicates stays without duplicates. */
  lemma ToggleKeepsNoDuplicates(selected: seq<string>, id: string)
    requires NoDuplicates(selected)
    ensures NoDuplicates(Toggle(selected, id))
  {
    if id in selected {
      RemoveKeepsNoDuplicates(selected, id);
    } else {
      var r := selected + [id];
      forall i, j | 0 <= i < j < |r| ensures r[i] != r[j] {
        if j == |selected| {
          assert r[i] == selected[i];
        } else {
          assert r[i] == selected[i] && r[j] == selected[j];
        }
      }
    }
  }

  /** The other ids keep their relative order: apart from the toggled id,
      the selection reads the same before and after. */
  lemma {:induction false} ToggleKeepsOthersInOrder(selected: seq<string>, id: string)
    ensures Remove(Toggle(selected, id), id) == Remove(selected, id)
  {
    if id in selected {
      RemoveIsIdempotent(selected, id);
    } else {
      RemoveAppend(selected, [id], id);
      assert Remove([id], id) == [] by {
        assert [id][1..] == [];
      }
      assert Remove(selected, id) + [] == Remove(selected, id);
    }
  }

  lemma {:induction false} RemoveIsIdempotent(selected: seq<string>, id: string)
    ensures Remove(Remove(selected, id), id) == Remove(selected, id)
  {
    RemoveAbsent(Remove(selected, id), id);
  }

  /** Toggling an unselected id twice gives the original selection back. */
  lemma {:induction false} ToggleTwiceRestoresAbsent(selected: seq<string>, id: string)
    requires id !in selected
    ensures Toggle(Toggle(selected, id), id) == selected
  {
    RemoveAppend(selected, [id], id);
    RemoveAbsent(selected, id);
    assert [id][1..] == [];
    assert selected + [] == selected;
  }

  /** Toggling a selected id twice moves it to the end. */
  lemma {:induction false} ToggleTwiceMovesPresentToEnd(selected: seq<string>, id: string)
    requires id in selected
    ensures Toggle(Toggle(selected, id), id) == Remove(selected, id) + [id]
  {
  }
}

=== FILE: trip_filter.dfy ===
/** The trip picker (`src/Components/TripFilter.tsx`): its fixed page
    request, the trips it shows and how each is labelled, and its toggle. */
module TripFilter {
  import opened Common
  import opened QueryParams
  import opened ApiTypes
  import opened HttpClient
  import TripService
  import PagedQuery
  import Selection

  /** Trips are requested 20 at a time. */
  const TripPageLimit := 20
  const InitialPageParam: nat := 0

  /** The `fetchTrips` options of one page: offset and limit only. */
  function RequestOptions(pageParam: nat): TripService.Options
  {
    TripService.Options(Some(pageParam), Some(TripPageLimit), None, None)
  }

  /** The request of one page. The picker passes neither route ids nor a
      free-text filter, so every request is for today's trips and none is
      filtered by route. */
  function PageRequest(pageParam: nat, nowIso: string): (req: Request)
    ensures req.path == "/trips"
    ensures PageOffset in req.params && req.params[PageOffset] == Num(pageParam)
    ensures PageLimit in req.params && req.params[PageLimit] == Num(20)
    ensures FilterDate in req.params && req.params[FilterDate] == Text(TripService.IsoDate(nowIso))
    ensures FilterRoute !in req.params
  {
    TripService.FetchTrips(RequestOptions(pageParam), nowIso)
  }

  /** The trips listed: the loaded pages concatenated in order, or none
      before the first page arrives. */
  function DisplayedTrips(pages: Option<seq<ListResponse<Trip>>>): (trips: seq<Trip>)
    ensures pages.None? ==> trips == []
    ensures pages.Some? ==> trips == PagedQuery.Flatten(pages.value)
  {
    PagedQuery.Displayed(pages)
  }

  /** `trip.attributes.headsign || trip.id`. */
  function TripLabel(trip: Trip): (text: string)
    ensures text == trip.headsign || text == trip.id
    ensures trip.headsign != "" ==> text == trip.headsign
    ensures text == "" ==> trip.headsign == "" && trip.id == ""
  {
    if trip.headsign != "" then trip.headsign else trip.id
  }

  /** `toggleTrip(tripId)`: the new selection handed to `onChange`. */
  function ToggleTrip(selectedTrips: seq<string>, tripId: string): (r: seq<string>)
    ensures tripId in r <==> tripId !in selectedTrips
    ensures forall x :: x != tripId ==> (x in r <==> x in selectedTrips)
    ensures tripId !in selectedTrips ==> r == selectedTrips + [tripId]
  {
    Selection.Toggle(selectedTrips, tripId)
  }

  /** Toggling an unselected trip twice is the identity, the other trips
      keep their order, and no trip is ever listed twice. */
  lemma {:induction false} ToggleTripProperties(selectedTrips: seq<string>, tripId: string)
    ensures tripId !in selectedTrips ==> ToggleTrip(ToggleTrip(selectedTrips, tripId), tripId) == selectedTrips
    ensures Selection.Remove(ToggleTrip(selectedTrips, tripId), tripId) == Selection.Remove(selectedTrips, tripId)
    ensures Selection.NoDuplicates(selectedTrips) ==> Selection.NoDuplicates(ToggleTrip(selectedTrips, tripId))
  {
    if tripId !in selectedTrips {
      Selection.ToggleTwiceRestoresAbsent(selectedTrips, tripId);
    }
    Selection.ToggleKeepsOthersInOrder(selectedTrips, tripId);
    if Selection.NoDuplicates(selectedTrips) {
      Selection.ToggleKeepsNoDuplicates(selectedTrips, tripId);
    }
  }
}

=== FILE: trip_service.dfy ===
/** The trip requests (`src/services/trip.service.ts`) as pure builders of
    the GET request handed to the HTTP client. The wall clock read by
    `new Date().toISOString()` is an input, `nowIso`. */
module TripService {
  import opened Common
  import opened QueryParams
  import opened HttpClient

  /** `FetchTripsOptions`: every field optional. */
  datatype Options = Options(offset: Option<int>, limit: Option<int>,
                             filter: Option<string>, routeIds: Option<seq<string>>)

  const DefaultOffset := 0
  const DefaultLimit := 20
  const RouteInclude := "route"
  const NewestFirst := "-updated_at"

  /** Neither a route list nor a free-text filter narrows the query, so the
      listing is restricted to today's trips. */
  predicate DefaultsToToday(opts: Options)
  {
    !HasIds(opts.routeIds) && opts.filter.GetOr("") == ""
  }

  /** `iso.split("T")[0]`: the calendar-date part of an ISO timestamp, that
      is, the longest prefix without a `T`. */
  function IsoDate(iso: string): (date: string)
    ensures |date| <= |iso| && date == iso[..|date|]
    ensures 'T' !in date
    ensures |date| < |iso| ==> iso[|date|] == 'T'
  {
    Split(iso, 'T')[0]
  }

  predicate IsDigit(c: char)
  {
    '0' <= c <= '9'
  }

  /** `YYYY-MM-DD`. */
  predicate IsCalendarDate(d: string)
  {
    && |d| == 10
    && IsDigit(d[0]) && IsDigit(d[1]) && IsDigit(d[2]) && IsDigit(d[3])
    && d[4] == '-' && IsDigit(d[5]) && IsDigit(d[6])
    && d[7] == '-' && IsDigit(d[8]) && IsDigit(d[9])
  }

  /** The shape `toISOString` produces for years 0 to 9999:
      `YYYY-MM-DDTHH:mm:ss.sssZ`, in UTC. */
  predicate IsIsoTimestamp(iso: string)
  {
    |iso| == 24 && IsCalendarDate(iso[..10]) && iso[10] == 'T' && iso[23] == 'Z'
  }

  /** The date sent is the first ten characters of the UTC timestamp. */
  lemma IsoDateIsFirstTenCharacters(iso: string)
    requires IsIsoTimestamp(iso)
    ensures IsoDate(iso) == iso[..10]
    ensures IsCalendarDate(IsoDate(iso))
  {
    var d := iso[..10];
    assert forall i :: 0 <= i < 10 ==> d[i] != 'T';
    assert iso == d + ['T'] + iso[11..];
    SplitAtFirstSeparator(d, iso[11..], 'T');
  }

  /** `fetchTrips(options)`: the page window, the route included, newest
      first; a comma-joined route filter when route ids are given, and
      otherwise, unless a free-text filter is set, today's date. The
      free-text filter itself is never sent. */
  function FetchTrips(opts: Options, nowIso: string): (req: Request)
    ensures req.path == "/trips"
    ensures req.params.Keys == {PageOffset, PageLimit, Include, Sort}
                               + (if HasIds(opts.routeIds) then {FilterRoute} else {})
                               + (if DefaultsToToday(opts) then {FilterDate} else {})
    ensures req.params[PageOffset] == Num(opts.offset.GetOr(DefaultOffset))
    ensures req.params[PageLimit] == Num(opts.limit.GetOr(DefaultLimit))
    ensures req.params[Include] == Text(RouteInclude)
    ensures req.params[Sort] == Text(NewestFirst)
    ensures FilterRoute in req.params ==> req.params[FilterRoute] == Text(Join(opts.routeIds.value, IdSeparator))
    ensures FilterDate in req.params ==> req.params[FilterDate] == Text(IsoDate(nowIso))
    ensures !(FilterRoute in req.params && FilterDate in req.params)
  {
    var base := map[PageOffset := Num(opts.offset.GetOr(DefaultOffset)),
                     PageLimit := Num(opts.limit.GetOr(DefaultLimit)),
                     Include := Text(RouteInclude),
                     Sort := Text(NewestFirst)];
    var withRoutes := if HasIds(opts.routeIds)
                      then base[FilterRoute := Text(Join(opts.routeIds.value, IdSeparator))]
                      else base;
    var withDate := if DefaultsToToday(opts)
                    then withRoutes[FilterDate := Text(IsoDate(nowIso))]
                    else withRoutes;
    Get("/trips", withDate)
  }

  /** `fetchTripById(id)`: the trip's own path with its route included and
      nothing else. */
  function FetchTripById(id: string): (req: Request)
    ensures |req.path| >= 7 && req.path[..7] == "/trips/" && req.path[7..] == id
    ensures req.params.Keys == {Include}
    ensures req.params[Include] == Text(RouteInclude)
  {
    Get("/trips/" + id, map[Include := Text(RouteInclude)])
  }

  /** The date filter is sent exactly when the route list is absent or
      empty and the free-text filter is absent or empty: `!routeIds?.length
      && !filter`. */
  lemma DateFilterUnlessNarrowed(opts: Options, nowIso: string)
    ensures FilterDate in FetchTrips(opts, nowIso).params
            <==> (opts.routeIds == None || opts.routeIds == Some([]))
                 && (opts.filter == None || opts.filter == Some(""))
  {
  }

  /** Called with no options, the request asks for the first 20 of today's
      trips. */
  lemma DefaultRequest(nowIso: string)
    requires IsIsoTimestamp(nowIso)
    ensures FetchTrips(Options(None, None, None, None), nowIso)
         == Get("/trips", map[PageOffset := Num(0), PageLimit := Num(20), Include := Text("route"),
                              Sort := Text("-updated_at"), FilterDate := Text(nowIso[..10])])
  {
    IsoDateIsFirstTenCharacters(nowIso);
  }

  /** The free-text filter is never sent: two non-empty filters give the
      same request, and a non-empty filter only removes the date default. */
  lemma FreeTextOnlySuppressesDate(opts: Options, f1: string, f2: string, nowIso: string)
    requires f1 != "" && f2 != ""
    ensures FetchTrips(opts.(filter := Some(f1)), nowIso) == FetchTrips(opts.(filter := Some(f2)), nowIso)
    ensures !HasIds(opts.routeIds) ==>
              FetchTrips(opts.(filter := Some(f1)), nowIso).params
              == FetchTrips(opts.(filter := None), nowIso).params - {FilterDate}
  {
  }

  /** The server can recover the route ids: splitting the filter value on
      "," gives back exactly the ids sent, when no id contains a comma. */
  lemma RouteFilterRecoversIds(opts: Options, nowIso: string)
    requires opts.routeIds.Some? ==> forall i :: 0 <= i < |opts.routeIds.value| ==> IdSeparator !in opts.routeIds.value[i]
    ensures FilterRoute in FetchTrips(opts, nowIso).params ==>
              Split(FetchTrips(opts, nowIso).params[FilterRoute].s, IdSeparator) == opts.routeIds.value
  {
    if HasIds(opts.routeIds) {
      SplitJoin(opts.routeIds.value, IdSeparator);
    }
  }
}

=== FILE: use_vehicle.dfy ===
/** The vehicle-detail hook (`src/hooks/useVehicle.ts`): the query runs only
    for a selected, non-empty id, and projects the vehicle out of the
    response. */
module UseVehicle {
  import opened Common
  import opened ApiTypes
  import opened HttpClient
  import VehicleService

  /** `["vehicle", id]`. */
  datatype QueryKey = QueryKey(name: string, id: Option<string>)

  function Key(id: Option<string>): (key: QueryKey)
    ensures key.name == "vehicle" && key.id == id
  {
    QueryKey("vehicle", id)
  }

  /** `!!id`: null and the empty string are both falsy. */
  function Enabled(id: Option<string>): (enabled: bool)
    ensures enabled <==> id.Some? && id.value != ""
  {
    match id
    case Some(s) => s != ""
    case None => false
  }

  /** The request issued, if any. A disabled query issues none, so the
      `id!` of the query function is only ever evaluated on a real id. */
  function Request(id: Option<string>): (req: Option<HttpClient.Request>)
    ensures req.Some? <==> Enabled(id)
    ensures req.Some? ==> id.Some? && req.value == VehicleService.FetchVehicleById(id.value)
  {
    if Enabled(id) then Some(VehicleService.FetchVehicleById(id.value)) else None
  }

  /** `data?.data`. */
  function SelectedVehicle(data: Option<Response<Vehicle>>): (vehicle: Option<Vehicle>)
    ensures vehicle.Some? <==> data.Some?
    ensures data.Some? ==> vehicle.value == data.value.data
  {
    match data
    case Some(r) => Some(r.data)
    case None => None
  }

  /** Distinct ids get distinct cache entries, and a detail request always
      targets the selected vehicle's own path. */
  lemma KeysAndPathsFollowTheId(a: Option<string>, b: Option<string>)
    ensures Key(a) == Key(b) <==> a == b
    ensures Request(a).Some? && Request(b).Some? && a != b ==> Request(a).value.path != Request(b).value.path
  {
    if Request(a).Some? && Request(b).Some? && a != b {
      var pa := Request(a).value.path;
      var pb := Request(b).value.path;
      assert pa[10..] == a.value && pb[10..] == b.value;
    }
  }
}

=== FILE: use_vehicles.dfy ===
/** The vehicle-list hook (`src/hooks/useVehicles.ts`): its cache key, the
    options it forwards to `fetchVehicles`, and the defaults it projects
    from the response. Caching and refetching belong to react-query and are
    not modelled. */
module UseVehicles {
  import opened Common
  import opened ApiTypes
  import opened QueryParams
  import opened HttpClient
  import VehicleService
  import PagedQuery

  /** `UseVehiclesOptions`. */
  datatype Args = Args(limit: int, offset: int, filters: VehicleService.VehicleFilters)

  /** `["vehicles", limit, offset, filters]`. */
  datatype QueryKey = QueryKey(name: string, limit: int, offset: int, filters: VehicleService.VehicleFilters)

  function Key(args: Args): (key: QueryKey)
    ensures key.name == "vehicles"
    ensures Args(key.limit, key.offset, key.filters) == args
  {
    QueryKey("vehicles", args.limit, args.offset, args.filters)
  }

  /** The cache key tells argument tuples apart: distinct tuples never share
      a cached result. */
  lemma KeyIsInjective(a: Args, b: Args)
    ensures Key(a) == Key(b) <==> a == b
  {
  }

  /** The `fetchVehicles` options: limit and offset forwarded unchanged, the
      route and trip lists taken from the filters. */
  function FetchOptions(args: Args): (opts: VehicleService.Options)
    ensures opts.limit == Some(args.limit) && opts.offset == Some(args.offset)
    ensures opts.routeIds == args.filters.routes && opts.tripIds == args.filters.trips
  {
    VehicleService.Options(Some(args.offset), Some(args.limit), args.filters.routes, args.filters.trips)
  }

  /** The request the hook's query issues. */
  function Request(args: Args): (req: HttpClient.Request)
    ensures req.path == "/vehicles"
    ensures PageLimit in req.params && req.params[PageLimit] == Num(args.limit)
    ensures PageOffset in req.params && req.params[PageOffset] == Num(args.offset)
    ensures FilterRoute in req.params <==> HasIds(args.filters.routes)
    ensures FilterTrip in req.params <==> HasIds(args.filters.trips)
  {
    VehicleService.FetchVehicles(FetchOptions(args))
  }

  /** `data?.data ?? []`. */
  function Vehicles(data: Option<ListResponse<Vehicle>>): (vehicles: seq<Vehicle>)
    ensures data.Some? ==> vehicles == data.value.data
    ensures data.None? ==> vehicles == []
  {
    match data
    case Some(r) => r.data
    case None => []
  }

  /** `data?.meta?.total ?? 0`: the reported total, or 0 when there is no
      response, no meta or no total. */
  function TotalItems(data: Option<ListResponse<Vehicle>>): (total: nat)
    ensures data.Some? && data.value.meta.Some? && data.value.meta.value.total.Some?
            ==> total == data.value.meta.value.total.value
    ensures data.None? || data.value.meta.None? || data.value.meta.value.total.None? ==> total == 0
  {
    match data
    case Some(ListResponse(_, Some(Meta(Some(t))))) => t
    case _ => 0
  }

  /** The hook's `meta?.total ?? 0` and the pickers' `meta?.total || 0`
      differ only on falsy totals other than undefined, and the only such
      count is 0, which both keep as 0: on every response they agree. */
  lemma TotalItemsAgreesWithPickerTotal(response: ListResponse<Vehicle>)
    ensures TotalItems(Some(response)) == PagedQuery.ReportedTotal(response)
    ensures TotalItems(None) == 0
  {
  }
}

=== FILE: vehicle_list.dfy ===
/** The page coordinator (`src/pages/VehicleList.tsx`) as a state machine
    over `(page, itemsPerPage, selectedFilters, selectedId)`: the events the
    pickers, the vehicle cards, the modal and the pagination control send
    it, and the vehicle-list query it derives from its state. */
module VehicleList {
  import opened Common
  import opened QueryParams
  import VehicleService
  import UseVehicles
  import Pagination
  import Selection

  /** `selectedFilters`: both lists always present. */
  datatype Filters = Filters(routes: seq<string>, trips: seq<string>)

  datatype State = State(page: int, itemsPerPage: int, filters: Filters, selectedId: Option<string>)

  /** What the children propose through their callbacks. */
  datatype Event =
    | RoutesChanged(routes: seq<string>)    // RouteFilter's onChange
    | TripsChanged(trips: seq<string>)      // TripFilter's onChange
    | PageChanged(newPage: int)             // Pagination's onPageChange
    | ItemsPerPageChanged(items: int)       // Pagination's onItemsPerPageChange
    | VehicleClicked(id: string)            // a card's onClick
    | ModalClosed                           // the modal's onClose

  /** The state on first render. */
  const Initial := State(1, 5, Filters([], []), None)

  /** `handleFiltersChange`: the new filters, and back to page 1. */
  function HandleFiltersChange(s: State, newFilters: Filters): (t: State)
    ensures t.filters == newFilters && t.page == 1
    ensures t.itemsPerPage == s.itemsPerPage && t.selectedId == s.selectedId
  {
    s.(filters := newFilters, page := 1)
  }

  /** One event applied to the state. */
  function Step(s: State, e: Event): (t: State)
    ensures e.RoutesChanged? ==> t.filters.routes == e.routes && t.filters.trips == s.filters.trips
                                 && t.page == 1 && t.itemsPerPage == s.itemsPerPage && t.selectedId == s.selectedId
    ensures e.TripsChanged? ==> t.filters.trips == e.trips && t.filters.routes == s.filters.routes
                                && t.page == 1 && t.itemsPerPage == s.itemsPerPage && t.selectedId == s.selectedId
    ensures e.PageChanged? ==> t == s.(page := e.newPage)
    ensures e.ItemsPerPageChanged? ==> t.itemsPerPage == e.items && t.page == 1
                                       && t.filters == s.filters && t.selectedId == s.selectedId
    ensures e.VehicleClicked? ==> t == s.(selectedId := Some(e.id))
    ensures e.ModalClosed? ==> t == s.(selectedId := None)
  {
    match e
    case RoutesChanged(routes) => HandleFiltersChange(s, s.filters.(routes := routes))
    case TripsChanged(trips) => HandleFiltersChange(s, s.filters.(trips := trips))
    case PageChanged(p) => s.(page := p)
    case ItemsPerPageChanged(n) => s.(itemsPerPage := n, page := 1)
    case VehicleClicked(id) => s.(selectedId := Some(id))
    case ModalClosed => s.(selectedId := None)
  }

  /** The list offset `(page - 1) * itemsPerPage`: it skips exactly the
      items of the earlier pages, and the pagination's first item shown is
      the one right after it. */
  function Offset(s: State): (offset: int)
    ensures s.itemsPerPage >= 0 ==> offset + 1 == Pagination.StartItem(s.page, s.itemsPerPage)
    ensures s.page >= 1 && s.itemsPerPage >= 0 ==> offset == Pagination.ItemsBefore(s.page, s.itemsPerPage)
  {
    (s.page - 1) * s.itemsPerPage
  }

  /** The arguments the coordinator hands to `useVehicles`. */
  function VehiclesArgs(s: State): (args: UseVehicles.Args)
    ensures args.limit == s.itemsPerPage
    ensures args.offset == (s.page - 1) * s.itemsPerPage
    ensures args.filters.routes == Some(s.filters.routes) && args.filters.trips == Some(s.filters.trips)
  {
    UseVehicles.Args(s.itemsPerPage, Offset(s),
                     VehicleService.VehicleFilters(Some(s.filters.routes), Some(s.filters.trips)))
  }

  /** The states the page can be in: a page number of at least 1 and one of
      the selector's page sizes. */
  predicate WellFormed(s: State)
  {
    s.page >= 1 && Pagination.IsPageSizeChoice(s.itemsPerPage)
  }

  /** The events the rendered page can emit in state `s` when the last
      response reported `totalItems`: any new selection, a page size from
      the selector, the page an enabled pagination button proposes, a card
      click or a modal close. */
  function CanEmit(s: State, totalItems: nat, e: Event): (can: bool)
    ensures !e.PageChanged? && !e.ItemsPerPageChanged? ==> can
    ensures can && e.PageChanged? ==> e.newPage == s.page - 1 || e.newPage == s.page + 1
    ensures e.PageChanged? && s.page != 1 && e.newPage == s.page - 1 ==> can
    ensures e.PageChanged? && s.page == 1 && e.newPage == 0 ==> !can
    ensures e.PageChanged? && s.itemsPerPage > 0 && e.newPage == s.page + 1
            ==> (can <==> s.page != Pagination.TotalPages(totalItems, s.itemsPerPage))
    ensures can && e.ItemsPerPageChanged? ==> e.items == 5 || e.items == 10 || e.items == 20
  {
    match e
    case RoutesChanged(_) => true
    case TripsChanged(_) => true
    case PageChanged(p) =>
      || (!Pagination.PrevDisabled(s.page) && p == Pagination.PrevPage(s.page))
      || (s.itemsPerPage > 0
          && !Pagination.NextDisabled(s.page, Pagination.TotalPages(totalItems, s.itemsPerPage))
          && p == Pagination.NextPage(s.page))
    case ItemsPerPageChanged(n) => Pagination.IsPageSizeChoice(n)
    case VehicleClicked(_) => true
    case ModalClosed => true
  }

  /** The page starts well formed, at offset 0 with no filters and nothing
      selected. */
  lemma InitialState()
    ensures WellFormed(Initial)
    ensures Initial.page == 1 && Initial.itemsPerPage == 5
    ensures Offset(Initial) == 0
    ensures Initial.filters.routes == [] && Initial.filters.trips == [] && Initial.selectedId.None?
  {
  }

  /** Every event the page can emit keeps the state well formed: the
      coordinator does no clamping of its own, the disabled buttons and the
      fixed size choices do it. */
  lemma StepKeepsWellFormed(s: State, totalItems: nat, e: Event)
    requires WellFormed(s)
    requires CanEmit(s, totalItems, e)
    ensures WellFormed(Step(s, e))
  {
  }

  /** For a fixed total, a page change the page can emit from a page in
      range lands in range again: previous stops at page 1 and next stops
      at the last page. */
  lemma PageChangeStaysInRange(s: State, totalItems: nat, p: int)
    requires WellFormed(s)
    requires s.page <= Pagination.TotalPages(totalItems, s.itemsPerPage)
    requires CanEmit(s, totalItems, PageChanged(p))
    ensures 1 <= Step(s, PageChanged(p)).page <= Pagination.TotalPages(totalItems, s.itemsPerPage)
  {
  }

  /** Only the lower bound is kept. Once the page is past the last page,
      which every page is while the reported total is still 0, the page
      can emit a move to the page after it, further past the end. On the
      first render that is page 2. */
  lemma PageCanRunPastTheEnd(s: State, totalItems: nat)
    requires WellFormed(s)
    requires s.page > Pagination.TotalPages(totalItems, s.itemsPerPage)
    ensures CanEmit(s, totalItems, PageChanged(s.page + 1))
    ensures Step(s, PageChanged(s.page + 1)).page > Pagination.TotalPages(totalItems, s.itemsPerPage)
    ensures CanEmit(Initial, 0, PageChanged(2))
  {
    Pagination.NextPastTheEnd(s.page, totalItems, s.itemsPerPage);
    Pagination.EmptyListEdgeCase(Initial.itemsPerPage);
  }

  /** Any filter change lands on page 1, so the next list request starts at
      offset 0 with the page size unchanged. */
  lemma FilterChangeRestartsAtOffsetZero(s: State, e: Event)
    requires e.RoutesChanged? || e.TripsChanged? || e.ItemsPerPageChanged?
    ensures Step(s, e).page == 1
    ensures Offset(Step(s, e)) == 0
    ensures !e.ItemsPerPageChanged? ==> Step(s, e).itemsPerPage == s.itemsPerPage
  {
  }

  /** Selecting or clearing a vehicle is orthogonal to the list state: it
      changes neither page, page size nor filters, and it commutes with
      every other event as far as the list state is concerned. */
  lemma SelectionIsOrthogonal(s: State, e: Event, sel: Event)
    requires sel.VehicleClicked? || sel.ModalClosed?
    ensures Step(s, sel).page == s.page && Step(s, sel).itemsPerPage == s.itemsPerPage
    ensures Step(s, sel).filters == s.filters
    ensures VehiclesArgs(Step(s, sel)) == VehiclesArgs(s)
    ensures !(e.VehicleClicked? || e.ModalClosed?) ==>
              Step(Step(s, sel), e) == Step(Step(s, e), sel)
  {
  }

  /** Consecutive pages tile the list: page 1 starts at offset 0 and each
      next page starts exactly one page size later, so no vehicle is skipped
      or shown twice. */
  lemma OffsetsTile(s: State)
    requires WellFormed(s)
    ensures Offset(s.(page := 1)) == 0
    ensures Offset(s.(page := s.page + 1)) == Offset(s) + s.itemsPerPage
    ensures Offset(s) + 1 == Pagination.StartItem(s.page, s.itemsPerPage)
  {
  }

  /** The request the page ends up sending: the window of the current page,
      the filters of the current selection, and no other filter. */
  lemma VehicleListRequest(s: State)
    requires WellFormed(s)
    ensures var req := UseVehicles.Request(VehiclesArgs(s));
            && req.params[PageOffset] == Num((s.page - 1) * s.itemsPerPage)
            && req.params[PageLimit] == Num(s.itemsPerPage)
            && (FilterRoute in req.params <==> |s.filters.routes| > 0)
            && (FilterTrip in req.params <==> |s.filters.trips| > 0)
            && Offset(s) >= 0
  {
    Pagination.MultiplyMonotone(0, s.page - 1, s.itemsPerPage);
  }

  /** A toggle in a picker followed by the coordinator's reaction: only the
      toggled id's membership changes, the other list is untouched, and the
      page returns to 1. */
  lemma ToggleRouteThenStep(s: State, routeId: string)
    ensures var t := Step(s, RoutesChanged(Selection.Toggle(s.filters.routes, routeId)));
            && (routeId in t.filters.routes <==> routeId !in s.filters.routes)
            && (forall x :: x != routeId ==> (x in t.filters.routes <==> x in s.filters.routes))
            && t.filters.trips == s.filters.trips
            && t.page == 1
  {
  }
}

=== FILE: vehicle_service.dfy ===
/** The vehicle requests (`src/services/vehicle.service.ts`) as pure
    builders of the GET request handed to the HTTP client. */
module VehicleService {
  import opened Common
  import opened QueryParams
  import opened HttpClient

  /** `VehicleFilters`: either list may be absent. */
  datatype VehicleFilters = VehicleFilters(routes: Option<seq<string>>, trips: Option<seq<string>>)

  /** `FetchVehiclesOptions`: every field optional. */
  datatype Options = Options(offset: Option<int>, limit: Option<int>,
                             routeIds: Option<seq<string>>, tripIds: Option<seq<string>>)

  const DefaultOffset := 0
  const DefaultLimit := 20
  const VehicleIncludes := "trip,route"
  const NewestFirst := "-updated_at"

  /** The keys every vehicle list request carries. */
  function BaseKeys(): set<string>
  {
    {PageOffset, PageLimit, Include, Sort}
  }

  /** `fetchVehicles(options)`: the page window, both relationships
      included, newest first, and one comma-joined filter per non-empty id
      list. */
  function FetchVehicles(opts: Options): (req: Request)
    ensures req.path == "/vehicles"
    ensures req.params.Keys == BaseKeys()
                               + (if HasIds(opts.routeIds) then {FilterRoute} else {})
                               + (if HasIds(opts.tripIds) then {FilterTrip} else {})
    ensures req.params[PageOffset] == Num(opts.offset.GetOr(DefaultOffset))
    ensures req.params[PageLimit] == Num(opts.limit.GetOr(DefaultLimit))
    ensures req.params[Include] == Text(VehicleIncludes)
    ensures req.params[Sort] == Text(NewestFirst)
    ensures FilterRoute in req.params ==> req.params[FilterRoute] == Text(Join(opts.routeIds.value, IdSeparator))
    ensures FilterTrip in req.params ==> req.params[FilterTrip] == Text(Join(opts.tripIds.value, IdSeparator))
  {
    var base := map[PageOffset := Num(opts.offset.GetOr(DefaultOffset)),
                     PageLimit := Num(opts.limit.GetOr(DefaultLimit)),
                     Include := Text(VehicleIncludes),
                     Sort := Text(NewestFirst)];
    var withRoutes := if HasIds(opts.routeIds)
                      then base[FilterRoute := Text(Join(opts.routeIds.value, IdSeparator))]
                      else base;
    var withTrips := if HasIds(opts.tripIds)
                     then withRoutes[FilterTrip := Text(Join(opts.tripIds.value, IdSeparator))]
                     else withRoutes;
    Get("/vehicles", withTrips)
  }

  /** `fetchVehicleById(id)`: the vehicle's own path with both relationships
      included and nothing else. */
  function FetchVehicleById(id: string): (req: Request)
    ensures |req.path| >= 10 && req.path[..10] == "/vehicles/" && req.path[10..] == id
    ensures req.params.Keys == {Include}
    ensures req.params[Include] == Text(VehicleIncludes)
  {
    Get("/vehicles/" + id, map[Include := Text(VehicleIncludes)])
  }

  /** Called with no options, the request asks for the first 20 vehicles
      and filters nothing. */
  lemma DefaultRequest()
    ensures FetchVehicles(Options(None, None, None, None))
         == Get("/vehicles", map[PageOffset := Num(0), PageLimit := Num(20),
                                 Include := Text("trip,route"), Sort := Text("-updated_at")])
  {
  }

  /** The two filters are independent: each one's presence and value
      depends on its own id list only. */
  lemma FiltersAreIndependent(opts: Options, otherRoutes: Option<seq<string>>, otherTrips: Option<seq<string>>)
    ensures var a := FetchVehicles(opts);
            var b := FetchVehicles(opts.(tripIds := otherTrips));
            (FilterRoute in a.params <==> FilterRoute in b.params)
            && (FilterRoute in a.params ==> a.params[FilterRoute] == b.params[FilterRoute])
    ensures var a := FetchVehicles(opts);
            var b := FetchVehicles(opts.(routeIds := otherRoutes));
            (FilterTrip in a.params <==> FilterTrip in b.params)
            && (FilterTrip in a.params ==> a.params[FilterTrip] == b.params[FilterTrip])
  {
  }

  /** The possible key sets of a list request have four, five or six
      distinct keys. */
  lemma KeySetSizes()
    ensures |BaseKeys()| == 4
    ensures |BaseKeys() + {FilterRoute}| == 5
    ensures |BaseKeys() + {FilterTrip}| == 5
    ensures |BaseKeys() + {FilterRoute} + {FilterTrip}| == 6
  {
    assert BaseKeys() + {FilterRoute} == {PageOffset, PageLimit, Include, Sort, FilterRoute};
    assert BaseKeys() + {FilterTrip} == {PageOffset, PageLimit, Include, Sort, FilterTrip};
    assert BaseKeys() + {FilterRoute} + {FilterTrip} == {PageOffset, PageLimit, Include, Sort, FilterRoute, FilterTrip};
  }

  /** No other keys ever appear: four fixed ones plus one per filter
      present (neither, either or both). */
  lemma ParamCount(opts: Options)
    ensures |FetchVehicles(opts).params| == 4 + (if HasIds(opts.routeIds) then 1 else 0)
                                               + (if HasIds(opts.tripIds) then 1 else 0)
  {
    var keys := FetchVehicles(opts).params.Keys;
    assert |FetchVehicles(opts).params| == |keys|;
    KeySetSizes();
    if HasIds(opts.routeIds) && HasIds(opts.tripIds) {
      assert keys == BaseKeys() + {FilterRoute} + {FilterTrip};
    } else if HasIds(opts.routeIds) {
      assert keys == BaseKeys() + {FilterRoute};
    } else if HasIds(opts.tripIds) {
      assert keys == BaseKeys() + {FilterTrip};
    } else {
      assert keys == BaseKeys();
    }
  }

  /** The server can recover the id lists: splitting a filter value on ","
      gives back exactly the ids sent, when no id contains a comma. */
  lemma FilterValuesRecoverIds(opts: Options)
    requires opts.routeIds.Some? ==> forall i :: 0 <= i < |opts.routeIds.value| ==> IdSeparator !in opts.routeIds.value[i]
    requires opts.tripIds.Some? ==> forall i :: 0 <= i < |opts.tripIds.value| ==> IdSeparator !in opts.tripIds.value[i]
    ensures FilterRoute in FetchVehicles(opts).params ==>
              Split(FetchVehicles(opts).params[FilterRoute].s, IdSeparator) == opts.routeIds.value
    ensures FilterTrip in FetchVehicles(opts).params ==>
              Split(FetchVehicles(opts).params[FilterTrip].s, IdSeparator) == opts.tripIds.value
  {
    var req := FetchVehicles(opts);
    if FilterRoute in req.params {
      assert HasIds(opts.routeIds);
      assert req.params[FilterRoute].s == Join(opts.routeIds.value, IdSeparator);
      SplitJoin(opts.routeIds.value, IdSeparator);
    }
    if FilterTrip in req.params {
      assert HasIds(opts.tripIds);
      assert req.params[FilterTrip].s == Join(opts.tripIds.value, IdSeparator);
      SplitJoin(opts.tripIds.value, IdSeparator);
    }
  }
}
